=== FILE: README.md ===
# FUNDACITE request tracker — a Dafny model

This project models the decision logic of a small request-tracking web
service. Staff of one department create *solicitudes* (requests) addressed
to another department. The sender and the recipient may each change their
own part of a request. Anyone can export a set of requests as a paginated
PDF report: `export_pdf` (app.py:192-203) reads no session and does not
filter by department.

The model is functional. The request table is a sequence of immutable
`Solicitud` records. The session is the department stored in it
(`Option<string>`). A JSON body is a map from keys to string values. The
HTTP statuses are `Ok`, `Created`, `BadRequest`, `Unauthorized`,
`Forbidden`, `NotFound`, and `InternalError` for the 500 Flask answers with
when a handler raises. The create, update and delete handlers return a
status together with the resulting store. The listing, export and login
handlers return a `Result`: a value with 200, or an error status.

Modules, one per component of `app.py`:

- `Common` (common.dfy): `Option`, `Result`, the HTTP statuses, and the "signed in" test. A session department that is absent or empty counts as not signed in, because the source tests `not departamento`.
- `Solicitudes` (solicitud.dfy): the record, its columns, `to_dict` with its inverse, the store, and the primary-key lookup.
- `Mutation` (mutation.dfy): the role dispatch of `update_solicitud` and the column-level effect of an update.
- `Repository` (repository.dfy): the create, update and delete handlers.
- `Listing` (listing.dfy): the visibility filter and the newest-first order of `get_solicitudes`.
- `Report` (report.dfy): the y-cursor layout of the PDF, as a fold (`LayoutFrom`) and as a statement-by-statement loop (`DrawReport`).
- `Export` (export.dfy): the record selection of `export_pdf`.
- `Users` (users.dfy): default-account seeding at start-up, and `login`.

Environment inputs are parameters:

- `now` is the creation timestamp, standing in for `datetime.utcnow`.
- `measure(text, width)` is the paragraph height, standing in for reportlab's `Paragraph.wrapOn`.
- `formatDate` is the timestamp formatting, standing in for `strftime`.
- `hash` and `check` stand in for werkzeug's password hashing and checking.

The id of a new row is one more than the largest id in use. This is SQLite's
rule for an integer primary key, and it keeps ids unique.

Facts of the code the model keeps:

- The initial status is the literal `Recibida` (app.py:133).
- When neither `export_all` nor a non-empty `ids` list is given, the answer is 400 (app.py:202-203); no report is produced.
- `ORDER BY fecha_creacion DESC` (app.py:114) fixes no order among equal timestamps, so the model promises none. (`SortNewestFirst` happens to be stable, but no contract states it.)

## Model

| member | source | states |
|---|---|---|
| Solicitudes.ToDict | app.py:46-59 | the keys are exactly the eleven column keys, each column under its key, with the status under `estado`; there is no `status` key |
| Solicitudes.ToDictRoundTrip | app.py:46-59 | the JSON view loses nothing: reading it back gives the same request |
| Solicitudes.FindIndex | app.py:146 | `get_or_404` lookup: no index exactly when the id is not in the store; otherwise the first row with that id |
| Mutation.RoleOf | app.py:154-171 | the role is Sender iff the department is the sender; Recipient iff it is not the sender but is the recipient; Neither otherwise, so sender wins when both match |
| Mutation.ApplyUpdate | app.py:153-169 | column by column: a column the role may write takes the body's value when its key is present; every other column keeps its value |
| Mutation.ApplyUpdateCharacterized | app.py:153-169 | the column-wise contract determines the updated request uniquely |
| Mutation.ApplyUpdateIdempotent | app.py:153-169 | applying the same body twice with the same role equals applying it once |
| Mutation.WritableColumnsPartition | app.py:153-169 | no column is writable by both roles; id, sender, timestamp, cedula, name and type are writable by neither |
| Repository.NextId | app.py:34 | the id given to a new row is positive and not already in use |
| Repository.CreateSolicitud | app.py:118-140 | 401 iff not signed in; 400 iff signed in and a required key is missing; otherwise 201 and one row appended with sender = session department, status `Recibida`, the five body fields copied, a fresh id, timestamp `now` and no handler or resolution; on an error the store is unchanged |
| Repository.CreateIgnoresOtherKeys | app.py:126-134 | body keys other than the five required ones (such as `dependencia` or `estado`) do not affect creation |
| Repository.CreatePreservesUniqueIds | app.py:126-136 | creation keeps primary keys distinct |
| Repository.UpdateSolicitud | app.py:143-177 | 404 with the store unchanged for an unknown id, checked before the session; 401 when not signed in; 403 with the store unchanged iff the department is neither sender nor recipient; otherwise 200, only that row replaced by its update |
| Repository.SenderUpdate | app.py:154-159 | for the sender, only `descripcion` and `departamento_destino` change, each only when its key is present; all other columns keep their values |
| Repository.RecipientUpdate | app.py:162-169 | for a recipient that is not the sender, only status (key `estado`), `quien_atendio` and `que_hizo` change; all other columns keep their values |
| Repository.SameDepartmentActsAsSender | app.py:154-169 | when sender = recipient = acting department, status, handler and resolution are unchanged whatever the body carries |
| Repository.OutsiderForbidden | app.py:170-171 | a department that is neither sender nor recipient gets 403 and the store is unchanged |
| Repository.UpdatePreservesUniqueIds | app.py:152-173 | updates keep primary keys distinct |
| Repository.DeleteSolicitud | app.py:179-189 | 404 with the store unchanged iff the id is unknown; otherwise 200 and that row removed; no session is consulted |
| Repository.DeleteRemovesExactly | app.py:181-186 | with unique ids, deletion keeps exactly the rows with a different id and keeps ids unique |
| Listing.FilterVisible | app.py:111-113 | each stored row is kept, with its multiplicity, exactly when the department is its recipient or its sender |
| Listing.Insert | app.py:114 | inserting into a newest-first sequence gives a newest-first permutation with the new row added |
| Listing.SortNewestFirst | app.py:114 | the result is a permutation of the input, ordered by non-increasing `fecha_creacion` |
| Listing.ListSolicitudes | app.py:105-116 | 401 iff not signed in; otherwise exactly the visible rows, each as often as stored, newest first |
| Listing.ListedIffVisible | app.py:111-114 | a request is listed iff it is stored and the department is its sender or recipient |
| Listing.ListedOnce | app.py:111-114 | with unique ids each visible request is listed exactly once |
| Listing.StoredOnce | app.py:34 | with unique ids a stored request occurs exactly once |
| Export.FilterByIds | app.py:201 | each stored row is kept, with its multiplicity, exactly when its id is in the list |
| Export.SelectForExport | app.py:194-203 | `export_all` selects the whole store; otherwise a non-empty id list selects exactly the rows with those ids; otherwise 400 |
| Export.ExportPdf | app.py:192-303 | 400 exactly when nothing is asked for; otherwise the report laid out over the selection |
| Export.NoMatchGivesEmptyReport | app.py:200-201 | an id list that names no stored request gives a one-page report with only title, date and the "no records" line |
| Export.ExportAllCoversStore | app.py:198-199 | exporting all gives one block per stored request, in store order, with its id |
| Report.DetailLines | app.py:253-262 | eight detail lines; the handler line reads "Quien Atendió: N/A" exactly when the handler is absent, empty, or itself the text `N/A` |
| Common.SignedIn | app.py:107-109 | the session test: a request is answered 401 unless the session holds a non-empty department (used by listing, create and update) |
| Report.BlockHeight | app.py:246-298 | every request lowers the cursor by at least 215 points, and by at least 230 plus the description's height when it has a resolution |
| Report.Place | app.py:239-244 | a page break is taken exactly when the cursor is below 100; the header then lies at or above 100 and no higher than the continuation position or the cursor; the block ends strictly below its header, on the same or the next page |
| Report.LayoutFrom | app.py:238-298 | the forward fold over the requests yields one block per request |
| Report.LayoutFacts | app.py:238-298 | one block per request with its id; each block lowers the cursor by exactly 195 + description height + (35 + resolution height, or 20 without a resolution); a block starts a new page iff the cursor before it is below 100, and then starts at 792-50-30; the page count is the first page plus one per break |
| Report.Render | app.py:224-236 | the empty selection gives one page with the "no records" line at 792-50-30-20; otherwise one block per request and pages = 1 + breaks |
| Report.HeadersWithinPage | app.py:239-247 | every request header is drawn at a height between 100 and 792-50-30 |
| Report.NeverBacktracks | app.py:238-298 | each request is placed on a later page than, or lower on the same page than, every earlier request; a page break moves to the next page only |
| Report.PageCountBounds | app.py:238-244 | the report has at most one page more than requests, and ends on the last request's page |
| Report.DrawBlock | app.py:239-298 | the canvas steps for one request (break check, continuation title, header, one line per entry of `DetailLines`, description, resolution or `N/A`, separator) place it exactly as the layout rule says |
| Report.DrawReport | app.py:224-298 | the drawing loop produces exactly the layout of `Render` |
| Users.SeedFrom | app.py:319-324 | existing accounts are kept as a prefix; afterwards every department has an account under its lower-cased name; each added account has that username, its department and the default password's hash |
| Users.SeedUsers | app.py:319-326 | existing accounts are kept as a prefix, and afterwards each of the seven departments has an account under its lower-cased name |
| Users.SeedFromComplete | app.py:321 | when every department already has an account, seeding adds nothing |
| Users.SeedIdempotent | app.py:319-326 | seeding twice gives the same accounts as seeding once |
| Users.SeedKeepsUsernamesUnique | app.py:319-324 | seeding never creates a duplicate username |
| Users.FindUser | app.py:80 | the first account with that username, or none exactly when there is none |
| Users.Login | app.py:75-88 | success iff a username is given, an account with it exists, a password is given, and it checks against that account's hash; success returns that username and the department of that first matching account; an absent password with an existing account is 500, because the hash check raises on it; every other failure is 401 |
| Users.SeededHead | app.py:319-324 | after seeding an empty store, the first account is `dtisc` with department `DTISC` and the default password's hash |
| Users.SeededLogin | app.py:82-86 | after seeding an empty store, `dtisc` with password `fundacite` logs in with department `DTISC` |

## Left out

- Routing, `request.get_json`, cookie sessions, CORS and the HTML page routes are framework plumbing. The session is a parameter. The JSON body is a map of keys to strings.
- `logout` and `current_user` are not part of this model. They only clear or read the session.
- Non-string JSON values in a create or update body are not modelled. A number or boolean is stored as text in the `String`/`Text` columns and accepted, like the string it prints as. A `null` in a NOT NULL column, or a list or object, fails at commit and is answered with 400. A missing or non-JSON body is not modelled either.
- Users.Login: an absent `username` or `password` is modelled as `None`, and a JSON `null` behaves the same in the source. A non-string password (a number, a list) for an existing account is not modelled; the hash check raises on it and the answer is 500.
- Database commit failures and rollback are left out. Atomicity and constraint checks belong to the database. So are field-length limits and concurrent updates.
- Password hashing is foreign code. `hash` and `check` are parameters. Werkzeug's random salt is not modelled.
- Report drawing, fonts, the PDF bytes and `send_file` are left out. Reportlab parses the description and resolution as markup, and malformed markup makes `export_pdf` raise (500); `measure` is total, so this failure is not modelled. So are the header and detail text (except `DetailLines`) and the date strings. Paragraph heights are `nat` values from `measure`, not reportlab's floats.
- `fecha_creacion` is an opaque integer. Clock reads and `strftime` formatting are parameters.
- The order of `query.all()` and of the `id IN (...)` query is modelled as store order. The database does not promise an order.
- `export_all` is modelled as a boolean and `ids` as a list of integers. Python truthiness of other JSON values is not modelled.
- Users.Lower: only ASCII letters are lower-cased, which covers the department names; Python's full Unicode `str.lower` is not modelled.
- Users.SeededLogin: stated for the `dtisc` account only, not for every department.
- Listing.ListSolicitudes: does not promise an order among requests with equal timestamps, because the source does not.

=== FILE: common.dfy ===
/** Shared vocabulary of the request-tracking service: optional values, the
    HTTP outcomes the handlers answer with, and the session test every
    request handler performs first. */
module Common {

  /** A value that may be absent (a missing session entry, a missing record). */
  datatype Option<+T> = None | Some(value: T)

  /** The HTTP statuses the handlers of the service return (200, 201, 400,
      401, 403, 404). `InternalError` is the 500 Flask answers with when a
      handler raises an exception it does not catch. */
  datatype HttpStatus = Ok | Created | BadRequest | Unauthorized | Forbidden | NotFound | InternalError

  /** Either a value returned with 200, or the error status that replaced it. */
  datatype Result<+T> = Success(value: T) | Failure(status: HttpStatus)

  /** The handlers read `session['departamento']` and reject the request
      when it is falsy: absent, or the empty string. */
  predicate SignedIn(session: Option<string>)
  {
    session.Some? && session.value != ""
  }
}

=== FILE: export.dfy ===
/** `export_pdf`: which requests go into the report, and the report that is
    laid out for them. The selection is made in store order, the order the
    store hands rows back in. */
module Export {
  import opened Common
  import opened Solicitudes
  import opened Report

  /** The rows whose id is one of `ids`, in store order. */
  function FilterByIds(store: Store, ids: seq<int>): (s: seq<Solicitud>)
    ensures forall r :: multiset(s)[r] == if r.id in ids then multiset(store)[r] else 0
  {
    if store == [] then []
    else
      var rest := FilterByIds(store[1..], ids);
      assert store == [store[0]] + store[1..];
      if store[0].id in ids then [store[0]] + rest else rest
  }

  /** The selection: every row when `export_all` is truthy; otherwise the
      rows named by a non-empty `ids` list; otherwise 400. An `ids` list
      naming no stored row is a valid, empty selection. */
  function SelectForExport(store: Store, exportAll: bool, ids: seq<int>): (res: Result<seq<Solicitud>>)
    ensures res.Failure? <==> !exportAll && ids == []
    ensures res.Failure? ==> res.status == BadRequest
    ensures exportAll ==> res == Success(store)
    ensures !exportAll && ids != [] ==> res.Success? && forall r ::
      multiset(res.value)[r] == if r.id in ids then multiset(store)[r] else 0
  {
    if exportAll then Success(store)
    else if ids != [] then Success(FilterByIds(store, ids))
    else Failure(BadRequest)
  }

  /** The whole endpoint: the selection, then the report laid out over it. */
  function ExportPdf(store: Store, exportAll: bool, ids: seq<int>, measure: Measure): (res: Result<Document>)
    ensures res.Failure? <==> !exportAll && ids == []
    ensures res.Failure? ==> res.status == BadRequest
    ensures res.Success? ==> res.value == Render(SelectForExport(store, exportAll, ids).value, measure)
  {
    match SelectForExport(store, exportAll, ids)
    case Failure(e) => Failure(e)
    case Success(recs) => Success(Render(recs, measure))
  }

  /** When the ids name no stored request, the report is a single page with
      only the title, the date and the "no records" line. */
  lemma NoMatchGivesEmptyReport(store: Store, ids: seq<int>, measure: Measure)
    requires ids != []
    requires forall r :: r in store ==> r.id !in ids
    ensures ExportPdf(store, false, ids, measure) == Success(Document(1, [], Some(FirstRecordY), FirstRecordY))
  {
    var sel := SelectForExport(store, false, ids).value;
    forall r: Solicitud
      ensures multiset(sel)[r] == 0
    {
      if r.id in ids {
        assert r !in store;
      }
    }
    assert multiset(sel) == multiset{};
    assert |sel| == |multiset(sel)|;
  }

  /** Exporting everything lays out one block per stored request, in store
      order, with their ids. */
  lemma ExportAllCoversStore(store: Store, measure: Measure, k: nat)
    requires k < |store|
    ensures var doc := ExportPdf(store, true, [], measure).value;
      |doc.blocks| == |store| && doc.blocks[k].id == store[k].id
  {
    LayoutFacts(store, FirstRecordY, 1, measure);
  }
}

=== FILE: listing.dfy ===
/** `get_solicitudes`: the requests a department may see (it is their sender
    or their recipient), newest first. */
module Listing {
  import opened Common
  import opened Solicitudes

  /** A department sees a request it sent or one addressed to it. */
  predicate VisibleTo(r: Solicitud, dept: string)
  {
    r.departamentoDestino == dept || r.dependencia == dept
  }

  /** The rows of `store` that `dept` may see, in store order. */
  function FilterVisible(store: Store, dept: string): (s: seq<Solicitud>)
    ensures forall r :: multiset(s)[r] == if VisibleTo(r, dept) then multiset(store)[r] else 0
  {
    if store == [] then []
    else
      var rest := FilterVisible(store[1..], dept);
      assert store == [store[0]] + store[1..];
      if VisibleTo(store[0], dept) then [store[0]] + rest else rest
  }

  /** Newest first: creation timestamps never increase along the sequence. */
  ghost predicate NewestFirst(s: seq<Solicitud>)
  {
    forall i, j :: 0 <= i < j < |s| ==> s[i].fechaCreacion >= s[j].fechaCreacion
  }

  /** A row no older than the head of a newest-first sequence may lead it. */
  lemma ConsNewestFirst(h: Solicitud, s: seq<Solicitud>)
    requires NewestFirst(s)
    requires s == [] || h.fechaCreacion >= s[0].fechaCreacion
    ensures NewestFirst([h] + s)
  {
    var t := [h] + s;
    forall i, j | 0 <= i < j < |t|
      ensures t[i].fechaCreacion >= t[j].fechaCreacion
    {
      if i == 0 {
        assert t[j] == s[j - 1];
        if j > 1 {
          assert s[0].fechaCreacion >= s[j - 1].fechaCreacion;
        }
      } else {
        assert t[i] == s[i - 1] && t[j] == s[j - 1];
      }
    }
  }

  /** Places `x` in front of the first row that is not newer than it. */
  function Insert(x: Solicitud, s: seq<Solicitud>): (t: seq<Solicitud>)
    requires NewestFirst(s)
    ensures NewestFirst(t)
    ensures multiset(t) == multiset(s) + multiset{x}
    ensures t != [] && (t[0] == x || (s != [] && t[0] == s[0]))
  {
    if s == [] || s[0].fechaCreacion <= x.fechaCreacion then
      ConsNewestFirst(x, s);
      [x] + s
    else
      assert s == [s[0]] + s[1..];
      var rest := Insert(x, s[1..]);
      ConsNewestFirst(s[0], rest);
      [s[0]] + rest
  }

  /** Orders rows newest first (an insertion sort). */
  function SortNewestFirst(s: seq<Solicitud>): (t: seq<Solicitud>)
    ensures NewestFirst(t)
    ensures multiset(t) == multiset(s)
  {
    if s == [] then []
    else
      assert s == [s[0]] + s[1..];
      Insert(s[0], SortNewestFirst(s[1..]))
  }

  /** The listing: 401 without a session, otherwise exactly the visible rows
      (each as often as it is stored), newest first. */
  function ListSolicitudes(store: Store, session: Option<string>): (res: Result<seq<Solicitud>>)
    ensures res.Failure? <==> !SignedIn(session)
    ensures res.Failure? ==> res.status == Unauthorized
    ensures res.Success? ==> NewestFirst(res.value)
    ensures res.Success? ==> forall r ::
      multiset(res.value)[r] == if VisibleTo(r, session.value) then multiset(store)[r] else 0
  {
    if !SignedIn(session) then Failure(Unauthorized)
    else Success(SortNewestFirst(FilterVisible(store, session.value)))
  }

  /** Membership form of the listing contract: a row is listed exactly when
      it is stored and the session's department is its sender or recipient. */
  lemma ListedIffVisible(store: Store, dept: string, r: Solicitud)
    requires dept != ""
    ensures r in ListSolicitudes(store, Some(dept)).value <==> r in store && VisibleTo(r, dept)
  {
    var listed := ListSolicitudes(store, Some(dept)).value;
    assert r in listed <==> multiset(listed)[r] > 0;
    assert r in store <==> multiset(store)[r] > 0;
  }

  /** With distinct ids, the listing holds each visible request once. */
  lemma ListedOnce(store: Store, dept: string, r: Solicitud)
    requires dept != "" && UniqueIds(store)
    requires r in store && VisibleTo(r, dept)
    ensures multiset(ListSolicitudes(store, Some(dept)).value)[r] == 1
  {
    StoredOnce(store, r);
  }

  /** With distinct ids, a stored request occurs exactly once. */
  lemma {:induction false} StoredOnce(store: Store, r: Solicitud)
    requires UniqueIds(store) && r in store
    ensures multiset(store)[r] == 1
  {
    assert store == [store[0]] + store[1..];
    if store[0] == r {
      assert r !in store[1..] by {
        forall k | 0 <= k < |store[1..]|
          ensures store[1..][k] != r
        {
          assert store[1..][k] == store[k + 1];
        }
      }
    } else {
      assert UniqueIds(store[1..]) by {
        forall i, j | 0 <= i < j < |store[1..]|
          ensures store[1..][i].id != store[1..][j].id
        {
          assert store[1..][i] == store[i + 1] && store[1..][j] == store[j + 1];
        }
      }
      StoredOnce(store[1..], r);
    }
  }
}

=== FILE: mutation.dfy ===
/** The permission-gated mutation engine of `update_solicitud`: the acting
    department is matched against the request's sender and recipient, and
    the role found decides which columns the payload may overwrite. */
module Mutation {
  import opened Common
  import opened Solicitudes

  /** A JSON request body: the keys present and their (string) values. */
  type Payload = map<string, string>

  /** The part the acting department plays for one request. */
  datatype Role = Sender | Recipient | Neither

  /** The sender test comes first, so a department that is both sender and
      recipient acts as the sender. */
  function RoleOf(r: Solicitud, dept: string): (role: Role)
    ensures role == Sender <==> dept == r.dependencia
    ensures role == Recipient <==> dept != r.dependencia && dept == r.departamentoDestino
    ensures role == Neither <==> dept != r.dependencia && dept != r.departamentoDestino
  {
    if dept == r.dependencia then Sender
    else if dept == r.departamentoDestino then Recipient
    else Neither
  }

  /** The columns each role may overwrite. */
  function Writable(role: Role): set<Column>
  {
    match role
    case Sender => {Descripcion, DepartamentoDestino}
    case Recipient => {Status, QuienAtendio, QueHizo}
    case Neither => {}
  }

  /** No column is writable by both roles, and the identity, provenance and
      timestamp columns are writable by neither. */
  lemma WritableColumnsPartition(role: Role)
    ensures Writable(Sender) !! Writable(Recipient)
    ensures Id !in Writable(role) && Dependencia !in Writable(role)
    ensures FechaCreacion !in Writable(role) && Cedula !in Writable(role)
    ensures Nombre !in Writable(role) && Tipo !in Writable(role)
  {
  }

  /** The value column `c` should hold after `role` applies `data` to `r`:
      the payload's value when the role may write `c` and the payload
      carries its key, the old value otherwise. */
  ghost function Expected(r: Solicitud, role: Role, data: Payload, c: Column): Json
  {
    if c in Writable(role) && KeyOf(c) in data then JStr(data[KeyOf(c)]) else Get(r, c)
  }

  /** Applies the writable part of a payload to one request. */
  function ApplyUpdate(r: Solicitud, role: Role, data: Payload): (r': Solicitud)
    ensures forall c: Column :: Get(r', c) == Expected(r, role, data, c)
  {
    match role
    case Sender =>
      r.(descripcion := if "descripcion" in data then data["descripcion"] else r.descripcion,
         departamentoDestino :=
           if "departamento_destino" in data then data["departamento_destino"] else r.departamentoDestino)
    case Recipient =>
      r.(status := if "estado" in data then data["estado"] else r.status,
         quienAtendio := if "quien_atendio" in data then Some(data["quien_atendio"]) else r.quienAtendio,
         queHizo := if "que_hizo" in data then Some(data["que_hizo"]) else r.queHizo)
    case Neither => r
  }

  /** The column-wise contract of `ApplyUpdate` pins its result down: any
      request meeting it is the one `ApplyUpdate` returns. */
  lemma ApplyUpdateCharacterized(r: Solicitud, role: Role, data: Payload, x: Solicitud)
    requires forall c: Column :: Get(x, c) == Expected(r, role, data, c)
    ensures x == ApplyUpdate(r, role, data)
  {
    var y := ApplyUpdate(r, role, data);
    forall c: Column
      ensures Get(x, c) == Get(y, c)
    {
    }
    ColumnsDetermineRecord(x, y);
  }

  /** Applying the same payload twice changes nothing the first application
      did not, provided the role is unchanged. */
  lemma ApplyUpdateIdempotent(r: Solicitud, role: Role, data: Payload)
    ensures ApplyUpdate(ApplyUpdate(r, role, data), role, data) == ApplyUpdate(r, role, data)
  {
    var once := ApplyUpdate(r, role, data);
    var twice := ApplyUpdate(once, role, data);
    forall c: Column
      ensures Get(twice, c) == Get(once, c)
    {
    }
    ColumnsDetermineRecord(twice, once);
  }
}

=== FILE: report.dfy ===
/** The vertical layout of the PDF report built by `export_pdf`: a greedy,
    single forward pass over the selected requests that keeps a y cursor on
    a US-letter page, starts a new page before a request when the cursor is
    below the bottom margin, and lowers the cursor by each request's block
    height. Drawing itself is not modelled; paragraph heights are what the
    `measure` parameter says they are. */
module Report {
  import opened Common
  import opened Solicitudes

  const PageWidth: int := 612
  const PageHeight: int := 792
  const Margin: int := 50
  /** Baseline of the report title on every page. */
  const TitleY: int := PageHeight - Margin
  /** Space taken by the title (18pt) line. */
  const TitleGap: int := 30
  /** Space taken by the generation-date line on the first page. */
  const DateGap: int := 20
  /** Where the first request (or the "no records" line) starts. */
  const FirstRecordY: int := TitleY - TitleGap - DateGap
  /** Where a request starts after a page break and the continuation title. */
  const ContinuedY: int := TitleY - TitleGap
  /** A request never starts while the cursor is below this line. */
  const BreakBelow: int := 100
  /** The line height of the header and of each detail line. */
  const LineHeight: int := 15
  /** The width paragraphs are wrapped to. */
  const ParagraphWidth: int := PageWidth - 2 * Margin - 20

  /** The height a paragraph of `text` takes when wrapped to `width`. */
  type Measure = (string, int) -> nat

  /** `que_hizo` is truthy: present and non-empty. */
  predicate HasResolution(r: Solicitud)
  {
    r.queHizo.Some? && r.queHizo.value != ""
  }

  /** The number of fixed detail lines under a request's header. */
  const DetailLineCount: nat := 8

  /** The fixed detail lines drawn under a request's header, given how
      timestamps are formatted; an absent or empty handler reads "N/A". */
  function DetailLines(r: Solicitud, formatDate: int -> string): (lines: seq<string>)
    ensures |lines| == DetailLineCount
    ensures lines[7] == "Quien Atendió: N/A" <==>
      r.quienAtendio.None? || r.quienAtendio.value in {"", "N/A"}
  {
    var prefix := "Quien Atendió: ";
    var shown := if r.quienAtendio.Some? && r.quienAtendio.value != "" then r.quienAtendio.value else "N/A";
    assert (prefix + shown)[|prefix|..] == shown;
    assert (prefix + "N/A")[|prefix|..] == "N/A";

    [ "Cédula: " + r.cedula,
      "Nombre: " + r.nombre,
      "Dpto. Emisor: " + r.dependencia,
      "Tipo: " + r.tipo,
      "Dpto. Destino: " + r.departamentoDestino,
      "Fecha de Creación: " + formatDate(r.fechaCreacion),
      "Estado: " + r.status,
      prefix + shown ]
  }

  /** How far one request lowers the cursor: a fixed 195 points plus the
      description's height, plus the resolution's height and 35 points when
      there is a resolution, or 20 points for the "N/A" line otherwise. */
  function BlockHeight(r: Solicitud, measure: Measure): (h: int)
    ensures h >= 215
    ensures HasResolution(r) ==> h >= 230 + measure(r.descripcion, ParagraphWidth)
  {
    195 + measure(r.descripcion, ParagraphWidth)
    + (if HasResolution(r) then 35 + measure(r.queHizo.value, ParagraphWidth) else 20)
  }

  /** Where one request was laid out: its page (counted from 1), the cursor
      at its header and after its block, and whether a page break was
      taken just before it. */
  datatype Block = Block(id: int, page: nat, top: int, bottom: int, startsPage: bool)

  /** The laid-out report: number of pages, one block per request, the
      cursor of the "no records" line when there were no requests, and the
      final cursor. */
  datatype Document = Document(pages: nat, blocks: seq<Block>, noRecordsAt: Option<int>, finalY: int)

  /** A running layout: the blocks so far, the cursor and the current page. */
  datatype Layout = Layout(blocks: seq<Block>, y: int, page: nat)

  /** The page-break rule: block `b` follows a cursor at `y` on page `page`
      when it breaks exactly if `y` is below the margin, starts at the
      continuation position on the next page if so, and where the cursor
      stands on the same page otherwise. */
  predicate Follows(y: int, page: nat, b: Block)
  {
    && b.startsPage == (y < BreakBelow)
    && b.top == (if b.startsPage then ContinuedY else y)
    && b.page == (if b.startsPage then page + 1 else page)
  }

  /** The number of page breaks taken. */
  function Breaks(blocks: seq<Block>): (n: nat)
    ensures n <= |blocks|
  {
    if blocks == [] then 0
    else (if blocks[0].startsPage then 1 else 0) + Breaks(blocks[1..])
  }

  /** One step of the layout: the break test before a request, then the
      request's block. */
  function Place(r: Solicitud, y: int, page: nat, measure: Measure): (b: Block)
    ensures b.startsPage <==> y < BreakBelow
    ensures BreakBelow <= b.top <= (if y < BreakBelow then ContinuedY else y)
    ensures b.bottom < b.top
    ensures b.page == page || b.page == page + 1
  {
    var brk := y < BreakBelow;
    var top := if brk then ContinuedY else y;
    Block(r.id, if brk then page + 1 else page, top, top - BlockHeight(r, measure), brk)
  }

  /** Lays `recs` out from cursor `y` on page `page`, one request at a time,
      never revisiting an earlier one. */
  function LayoutFrom(recs: seq<Solicitud>, y: int, page: nat, measure: Measure): (l: Layout)
    ensures |l.blocks| == |recs|
    decreases |recs|
  {
    if recs == [] then Layout([], y, page)
    else
      var b := Place(recs[0], y, page, measure);
      var rest := LayoutFrom(recs[1..], b.bottom, b.page, measure);
      Layout([b] + rest.blocks, rest.y, rest.page)
  }

  /** What the layout fold guarantees: one block per request, in order and
      with its id; each block lowers the cursor by exactly its request's
      height; each block follows the cursor left by the one before under
      the page-break rule; the final cursor and page are the last block's;
      and the page count grows by one per break. */
  lemma {:induction false} LayoutFacts(recs: seq<Solicitud>, y: int, page: nat, measure: Measure)
    ensures var l := LayoutFrom(recs, y, page, measure);
      && l.page == page + Breaks(l.blocks)
      && (recs == [] ==> l.y == y)
      && (recs != [] ==> l.y == l.blocks[|recs| - 1].bottom && l.page == l.blocks[|recs| - 1].page)
      && (forall k :: 0 <= k < |recs| ==>
            l.blocks[k].id == recs[k].id && l.blocks[k].bottom == l.blocks[k].top - BlockHeight(recs[k], measure))
      && (recs != [] ==> Follows(y, page, l.blocks[0]))
      && (forall k :: 0 < k < |recs| ==> Follows(l.blocks[k - 1].bottom, l.blocks[k - 1].page, l.blocks[k]))
    decreases |recs|
  {
    if recs != [] {
      var b := Place(recs[0], y, page, measure);
      LayoutFacts(recs[1..], b.bottom, b.page, measure);
      var rest := LayoutFrom(recs[1..], b.bottom, b.page, measure);
      var blocks := [b] + rest.blocks;
      assert blocks[1..] == rest.blocks;
      assert forall k :: 0 < k < |blocks| ==> blocks[k] == rest.blocks[k - 1];
    }
  }

  /** The report for `recs`, in the order given: the title and date lines,
      then either the single "no records" line or the laid-out requests. */
  function Render(recs: seq<Solicitud>, measure: Measure): (doc: Document)
    ensures doc.noRecordsAt.Some? <==> recs == []
    ensures recs == [] ==> doc == Document(1, [], Some(FirstRecordY), FirstRecordY)
    ensures |doc.blocks| == |recs|
    ensures doc.pages == 1 + Breaks(doc.blocks)
  {
    if recs == [] then Document(1, [], Some(FirstRecordY), FirstRecordY)
    else
      LayoutFacts(recs, FirstRecordY, 1, measure);
      var l := LayoutFrom(recs, FirstRecordY, 1, measure);
      Document(l.page, l.blocks, None, l.y)
  }

  /** Every request header lies between the bottom margin and the first
      line under the title: no request starts in the reserved bottom
      100 points. */
  lemma {:induction false} HeadersWithinPage(recs: seq<Solicitud>, measure: Measure, k: nat)
    requires k < |recs|
    ensures var b := Render(recs, measure).blocks[k];
      BreakBelow <= b.top <= ContinuedY
  {
    LayoutFacts(recs, FirstRecordY, 1, measure);
    var l := LayoutFrom(recs, FirstRecordY, 1, measure);
    if k > 0 {
      HeadersWithinPage(recs, measure, k - 1);
      assert Follows(l.blocks[k - 1].bottom, l.blocks[k - 1].page, l.blocks[k]);
    } else {
      assert Follows(FirstRecordY, 1, l.blocks[0]);
    }
  }

  /** Layout position order: an earlier page, or higher on the same page. */
  predicate Before(a: Block, b: Block)
  {
    a.page < b.page || (a.page == b.page && b.top < a.top)
  }

  /** Pagination never backtracks: each request is placed after every
      request before it, and a page break moves to exactly the next page. */
  lemma {:induction false} NeverBacktracks(recs: seq<Solicitud>, measure: Measure, i: nat, j: nat)
    requires i < j < |recs|
    ensures var bs := Render(recs, measure).blocks;
      && Before(bs[i], bs[j])
      && bs[j].page <= bs[i].page + (j - i)
  {
    LayoutFacts(recs, FirstRecordY, 1, measure);
    var l := LayoutFrom(recs, FirstRecordY, 1, measure);
    var bs := l.blocks;
    assert Follows(bs[j - 1].bottom, bs[j - 1].page, bs[j]);
    assert bs[j - 1].bottom == bs[j - 1].top - BlockHeight(recs[j - 1], measure);
    if i < j - 1 {
      NeverBacktracks(recs, measure, i, j - 1);
    }
  }

  /** The document has as many pages as the last request's page, and at
      most one more page than requests. */
  lemma PageCountBounds(recs: seq<Solicitud>, measure: Measure)
    ensures var doc := Render(recs, measure);
      && doc.pages <= 1 + |recs|
      && (recs != [] ==> doc.pages == doc.blocks[|recs| - 1].page)
  {
    LayoutFacts(recs, FirstRecordY, 1, measure);
  }

  /** One step of the layout fold. */
  lemma LayoutStep(recs: seq<Solicitud>, i: nat, y: int, page: nat, measure: Measure)
    requires i < |recs|
    ensures var b := Place(recs[i], y, page, measure);
      var tail := LayoutFrom(recs[i + 1..], b.bottom, b.page, measure);
      LayoutFrom(recs[i..], y, page, measure) == Layout([b] + tail.blocks, tail.y, tail.page)
  {
    assert recs[i..][0] == recs[i] && recs[i..][1..] == recs[i + 1..];
  }

  /** The canvas calls for one request, statement by statement: the
      optional page break with its continuation title, the header, the
      detail lines, the description paragraph, the resolution paragraph or
      its "N/A" line, and the separator with its spacing. */
  method DrawBlock(r: Solicitud, y0: int, page0: nat, measure: Measure, formatDate: int -> string) returns (b: Block)
    ensures b == Place(r, y0, page0, measure)
  {
    var y := y0;
    var page := page0;
    var startsPage := false;
    if y < BreakBelow {
      page := page + 1;
      y := TitleY;
      y := y - TitleGap;
      startsPage := true;
    }
    var top := y;
    y := y - LineHeight;
    var lines := DetailLines(r, formatDate);
    for d := 0 to |lines|
      invariant y == top - LineHeight - d * LineHeight
    {
      y := y - LineHeight;
    }
    y := y - 5;
    y := y - LineHeight;
    var descHeight := measure(r.descripcion, ParagraphWidth);
    y := y - (descHeight + 10);
    if HasResolution(r) {
      y := y - LineHeight;
      var resHeight := measure(r.queHizo.value, ParagraphWidth);
      y := y - (resHeight + 20);
    } else {
      y := y - 20;
    }
    y := y - 10;
    y := y - 20;
    b := Block(r.id, page, top, y, startsPage);
  }

  /** The drawing loop of `export_pdf`: the title and date lines, then
      either the "no records" line or one block per request in order. */
  method DrawReport(recs: seq<Solicitud>, measure: Measure, formatDate: int -> string) returns (doc: Document)
    ensures doc == Render(recs, measure)
  {
    var y := TitleY;
    y := y - TitleGap;
    y := y - DateGap;
    var page: nat := 1;
    if recs == [] {
      return Document(page, [], Some(y), y);
    }
    var blocks: seq<Block> := [];
    var i := 0;
    while i < |recs|
      invariant 0 <= i <= |recs|
      invariant var whole := LayoutFrom(recs, FirstRecordY, 1, measure);
        var tail := LayoutFrom(recs[i..], y, page, measure);
        whole.blocks == blocks + tail.blocks && whole.y == tail.y && whole.page == tail.page
    {
      ghost var tail := LayoutFrom(recs[i..], y, page, measure);
      var b := DrawBlock(recs[i], y, page, measure, formatDate);
      LayoutStep(recs, i, y, page, measure);
      ghost var tail' := LayoutFrom(recs[i + 1..], b.bottom, b.page, measure);
      assert tail.blocks == [b] + tail'.blocks;
      assert blocks + tail.blocks == (blocks + [b]) + tail'.blocks;
      blocks := blocks + [b];
      y := b.bottom;
      page := b.page;
      i := i + 1;
    }
    assert recs[i..] == [];
    doc := Document(page, blocks, None, y);
  }
}

=== FILE: repository.dfy ===
/** The mutating handlers of the request store: `create_solicitud`,
    `update_solicitud` and `delete_solicitud`. Each answers with an HTTP
    status and the store as it stands afterwards; every rejected request
    leaves the store as it was. */
module Repository {
  import opened Common
  import opened Solicitudes
  import opened Mutation

  /** The status a handler answers with and the resulting store. */
  datatype Outcome = Outcome(status: HttpStatus, store: Store)

  /** The keys `create_solicitud` reads from its body; a missing one raises
      `KeyError`, which is answered with 400. */
  const RequiredKeys: set<string> := {"cedula", "nombre", "tipo", "descripcion", "departamento_destino"}

  function MaxId(store: Store): (m: int)
    ensures forall r :: r in store ==> r.id <= m
    ensures m >= 0
  {
    if store == [] then 0
    else
      var rest := MaxId(store[1..]);
      assert forall r :: r in store ==> r == store[0] || r in store[1..];
      if store[0].id > rest then store[0].id else rest
  }

  /** The primary key the table assigns to a new row: one past the largest
      key in use. */
  function NextId(store: Store): (id: int)
    ensures id !in Ids(store)
    ensures id >= 1
  {
    MaxId(store) + 1
  }

  /** `create_solicitud`: the sender department is taken from the session,
      never from the body, and the status is forced to `Recibida`. */
  function CreateSolicitud(store: Store, session: Option<string>, data: Payload, now: int): (o: Outcome)
    ensures o.status == Unauthorized <==> !SignedIn(session)
    ensures o.status == BadRequest <==> SignedIn(session) && !(RequiredKeys <= data.Keys)
    ensures SignedIn(session) && RequiredKeys <= data.Keys ==> o.status == Created
    ensures o.status == Created || o.store == store
    ensures o.status == Created ==>
      && |o.store| == |store| + 1
      && o.store[..|store|] == store
      && var n := o.store[|store|];
      && n.id !in Ids(store)
      && n.dependencia == session.value
      && n.status == Recibida
      && n.cedula == data["cedula"] && n.nombre == data["nombre"] && n.tipo == data["tipo"]
      && n.descripcion == data["descripcion"] && n.departamentoDestino == data["departamento_destino"]
      && n.fechaCreacion == now
      && n.quienAtendio == None && n.queHizo == None
  {
    if !SignedIn(session) then Outcome(Unauthorized, store)
    else if !(RequiredKeys <= data.Keys) then Outcome(BadRequest, store)
    else
      var n := Solicitud(NextId(store), data["cedula"], data["nombre"], session.value, data["tipo"],
                         data["descripcion"], data["departamento_destino"], now, Recibida, None, None);
      Outcome(Created, store + [n])
  }

  /** Keys other than the five read are ignored: a body that also carries
      `dependencia`, `estado` or anything else creates the same request. */
  lemma CreateIgnoresOtherKeys(store: Store, session: Option<string>, data: Payload, now: int,
                               key: string, value: string)
    requires key !in RequiredKeys
    ensures CreateSolicitud(store, session, data[key := value], now) == CreateSolicitud(store, session, data, now)
  {
    var data' := data[key := value];
    assert RequiredKeys <= data'.Keys <==> RequiredKeys <= data.Keys;
  }

  /** Creation keeps the primary keys of the store distinct. */
  lemma CreatePreservesUniqueIds(store: Store, session: Option<string>, data: Payload, now: int)
    requires UniqueIds(store)
    ensures UniqueIds(CreateSolicitud(store, session, data, now).store)
  {
    var o := CreateSolicitud(store, session, data, now);
    if o.status == Created {
      forall i, j | 0 <= i < j < |o.store|
        ensures o.store[i].id != o.store[j].id
      {
        if j == |store| {
          assert o.store[i] == store[i];
          assert store[i] in store;
        } else {
          assert o.store[i] == store[i] && o.store[j] == store[j];
        }
      }
    }
  }

  /** `update_solicitud`: the id is looked up before the session is read,
      so an unknown id is answered with 404 even without a session. */
  function UpdateSolicitud(store: Store, id: int, session: Option<string>, data: Payload): (o: Outcome)
    ensures id !in Ids(store) ==> o == Outcome(NotFound, store)
    ensures id in Ids(store) && !SignedIn(session) ==> o == Outcome(Unauthorized, store)
    ensures o.status == Forbidden <==>
      id in Ids(store) && SignedIn(session)
      && RoleOf(store[FindIndex(store, id).value], session.value) == Neither
    ensures o.status == Forbidden ==> o.store == store
    ensures (id in Ids(store) && SignedIn(session)
             && RoleOf(store[FindIndex(store, id).value], session.value) != Neither) ==> o.status == Ok
    ensures o.status == Ok ==>
      && SignedIn(session)
      && var i := FindIndex(store, id).value;
      && |o.store| == |store|
      && o.store[i] == ApplyUpdate(store[i], RoleOf(store[i], session.value), data)
      && forall j :: 0 <= j < |store| && j != i ==> o.store[j] == store[j]
    ensures o.status in {Ok, NotFound, Unauthorized, Forbidden}
  {
    match FindIndex(store, id)
    case None => Outcome(NotFound, store)
    case Some(i) =>
      if !SignedIn(session) then Outcome(Unauthorized, store)
      else
        var role := RoleOf(store[i], session.value);
        if role == Neither then Outcome(Forbidden, store)
        else Outcome(Ok, store[i := ApplyUpdate(store[i], role, data)])
  }

  /** The sender of request `store[j]` may change its description and its
      recipient, each only when the body carries the key; every other
      column keeps its value whatever else the body carries. */
  lemma SenderUpdate(store: Store, j: nat, dept: string, data: Payload)
    requires UniqueIds(store) && j < |store|
    requires dept != "" && dept == store[j].dependencia
    ensures var o := UpdateSolicitud(store, store[j].id, Some(dept), data);
      && o.status == Ok
      && (forall c: Column :: c !in {Descripcion, DepartamentoDestino} ==> Get(o.store[j], c) == Get(store[j], c))
      && (forall c: Column :: c in {Descripcion, DepartamentoDestino} ==>
            Get(o.store[j], c) == (if KeyOf(c) in data then JStr(data[KeyOf(c)]) else Get(store[j], c)))
  {
    FindIndexUnique(store, store[j].id, j);
  }

  /** The recipient (when it is not also the sender) may change the status
      (body key `estado`), the handler and the resolution; the description,
      the recipient and every other column keep their values. */
  lemma RecipientUpdate(store: Store, j: nat, dept: string, data: Payload)
    requires UniqueIds(store) && j < |store|
    requires dept != "" && dept != store[j].dependencia && dept == store[j].departamentoDestino
    ensures var o := UpdateSolicitud(store, store[j].id, Some(dept), data);
      && o.status == Ok
      && (forall c: Column :: c !in {Status, QuienAtendio, QueHizo} ==> Get(o.store[j], c) == Get(store[j], c))
      && (forall c: Column :: c in {Status, QuienAtendio, QueHizo} ==>
            Get(o.store[j], c) == (if KeyOf(c) in data then JStr(data[KeyOf(c)]) else Get(store[j], c)))
  {
    FindIndexUnique(store, store[j].id, j);
  }

  /** When one department is both sender and recipient, the sender branch
      is taken: status, handler and resolution stay as they were even when
      the body supplies them. */
  lemma SameDepartmentActsAsSender(store: Store, j: nat, dept: string, data: Payload)
    requires UniqueIds(store) && j < |store|
    requires dept != "" && dept == store[j].dependencia && dept == store[j].departamentoDestino
    ensures var o := UpdateSolicitud(store, store[j].id, Some(dept), data);
      && o.status == Ok
      && o.store[j].status == store[j].status
      && o.store[j].quienAtendio == store[j].quienAtendio
      && o.store[j].queHizo == store[j].queHizo
  {
    SenderUpdate(store, j, dept, data);
    assert Get(store[j], Status) == JStr(store[j].status);
    assert Get(store[j], QuienAtendio) == OptionToJson(store[j].quienAtendio);
    assert Get(store[j], QueHizo) == OptionToJson(store[j].queHizo);
    var o := UpdateSolicitud(store, store[j].id, Some(dept), data);
    assert Get(o.store[j], QuienAtendio) == Get(store[j], QuienAtendio);
    assert Get(o.store[j], QueHizo) == Get(store[j], QueHizo);
    match store[j].quienAtendio {
      case None =>
      case Some(_) =>
    }
    match store[j].queHizo {
      case None =>
      case Some(_) =>
    }
  }

  /** A department that is neither sender nor recipient is refused with 403
      and the store is left as it was. */
  lemma OutsiderForbidden(store: Store, j: nat, dept: string, data: Payload)
    requires UniqueIds(store) && j < |store|
    requires dept != "" && dept != store[j].dependencia && dept != store[j].departamentoDestino
    ensures UpdateSolicitud(store, store[j].id, Some(dept), data) == Outcome(Forbidden, store)
  {
    FindIndexUnique(store, store[j].id, j);
  }

  /** Updates never touch primary keys, so the store keeps them distinct. */
  lemma UpdatePreservesUniqueIds(store: Store, id: int, session: Option<string>, data: Payload)
    requires UniqueIds(store)
    ensures UniqueIds(UpdateSolicitud(store, id, session, data).store)
  {
    var o := UpdateSolicitud(store, id, session, data);
    if o.status == Ok {
      var i := FindIndex(store, id).value;
      assert Get(o.store[i], Id) == Get(store[i], Id);
      forall a, b | 0 <= a < b < |o.store|
        ensures o.store[a].id != o.store[b].id
      {
        assert o.store[a].id == store[a].id;
        assert o.store[b].id == store[b].id;
      }
    }
  }

  /** `delete_solicitud`: 404 for an unknown id, otherwise the row is
      removed. No session or department is consulted. */
  function DeleteSolicitud(store: Store, id: int): (o: Outcome)
    ensures o.status == NotFound <==> id !in Ids(store)
    ensures o.status == NotFound ==> o.store == store
    ensures o.status == Ok || o.status == NotFound
    ensures o.status == Ok ==>
      && |o.store| == |store| - 1
      && var i := FindIndex(store, id).value;
      && o.store == store[..i] + store[i + 1..]
  {
    match FindIndex(store, id)
    case None => Outcome(NotFound, store)
    case Some(i) => Outcome(Ok, store[..i] + store[i + 1..])
  }

  /** Removing position `i` keeps every other row, shifted down by one. */
  lemma RemoveAtShifts(store: Store, i: nat)
    requires i < |store|
    ensures |store[..i] + store[i + 1..]| == |store| - 1
    ensures forall k :: 0 <= k < i ==> (store[..i] + store[i + 1..])[k] == store[k]
    ensures forall k :: i < k < |store| ==> (store[..i] + store[i + 1..])[k - 1] == store[k]
  {
  }

  /** In a store with unique ids, deleting removes exactly the row with that
      id and keeps every other row, in order. */
  lemma DeleteRemovesExactly(store: Store, id: int)
    requires UniqueIds(store)
    requires id in Ids(store)
    ensures var o := DeleteSolicitud(store, id);
      && o.status == Ok
      && (forall r :: r in o.store <==> r in store && r.id != id)
      && UniqueIds(o.store)
  {
    var i := FindIndex(store, id).value;
    var rest := store[..i] + store[i + 1..];
    assert DeleteSolicitud(store, id).store == rest;
    RemoveAtShifts(store, i);
    forall r | r in rest
      ensures r in store && r.id != id
    {
      var k :| 0 <= k < |rest| && rest[k] == r;
      if k < i {
        assert r == store[k];
      } else {
        assert r == store[k + 1];
      }
    }
    forall r | r in store && r.id != id
      ensures r in rest
    {
      var k :| 0 <= k < |store| && store[k] == r;
      if k < i {
        assert rest[k] == r;
      } else {
        assert rest[k - 1] == r;
      }
    }
    forall a, b | 0 <= a < b < |rest|
      ensures rest[a].id != rest[b].id
    {
      if b < i {
        assert rest[a] == store[a] && rest[b] == store[b];
      } else if a < i {
        assert rest[a] == store[a] && rest[b] == store[b + 1];
      } else {
        assert rest[a] == store[a + 1] && rest[b] == store[b + 1];
      }
    }
  }
}

=== FILE: solicitud.dfy ===
/** The request record ("solicitud"), its JSON view `to_dict`, and the
    in-memory request store that stands in for the `solicitud` table. */
module Solicitudes {
  import opened Common

  /** One request routed from a sender department (`dependencia`) to a
      recipient department (`departamentoDestino`). `fechaCreacion` is the
      creation timestamp as an opaque ordered value; `quienAtendio` and
      `queHizo` are the two nullable columns. */
  datatype Solicitud = Solicitud(
    id: int,
    cedula: string,
    nombre: string,
    dependencia: string,
    tipo: string,
    descripcion: string,
    departamentoDestino: string,
    fechaCreacion: int,
    status: string,
    quienAtendio: Option<string>,
    queHizo: Option<string>)

  /** The status every new request is stamped with. */
  const Recibida: string := "Recibida"

  /** A JSON value as it appears in `to_dict` output. */
  datatype Json = JInt(n: int) | JStr(s: string) | JNull

  /** The columns of a request, one constructor per column. */
  datatype Column =
    | Id | Cedula | Nombre | Dependencia | Tipo | Descripcion
    | DepartamentoDestino | FechaCreacion | Status | QuienAtendio | QueHizo

  /** The key under which a column appears in `to_dict`; it is also the key
      an update payload uses for that column. The status column is exposed
      as `estado`, not under its column name. */
  function KeyOf(c: Column): string
  {
    match c
    case Id => "id"
    case Cedula => "cedula"
    case Nombre => "nombre"
    case Dependencia => "dependencia"
    case Tipo => "tipo"
    case Descripcion => "descripcion"
    case DepartamentoDestino => "departamento_destino"
    case FechaCreacion => "fecha_creacion"
    case Status => "estado"
    case QuienAtendio => "quien_atendio"
    case QueHizo => "que_hizo"
  }

  function OptionToJson(o: Option<string>): Json
  {
    match o
    case None => JNull
    case Some(v) => JStr(v)
  }

  /** The value a request holds in one column. */
  function Get(r: Solicitud, c: Column): Json
  {
    match c
    case Id => JInt(r.id)
    case Cedula => JStr(r.cedula)
    case Nombre => JStr(r.nombre)
    case Dependencia => JStr(r.dependencia)
    case Tipo => JStr(r.tipo)
    case Descripcion => JStr(r.descripcion)
    case DepartamentoDestino => JStr(r.departamentoDestino)
    case FechaCreacion => JInt(r.fechaCreacion)
    case Status => JStr(r.status)
    case QuienAtendio => OptionToJson(r.quienAtendio)
    case QueHizo => OptionToJson(r.queHizo)
  }

  /** Two requests agree column by column exactly when they are equal. */
  lemma ColumnsDetermineRecord(a: Solicitud, b: Solicitud)
    requires forall c: Column :: Get(a, c) == Get(b, c)
    ensures a == b
  {
    assert Get(a, Id) == Get(b, Id);
    assert Get(a, Cedula) == Get(b, Cedula);
    assert Get(a, Nombre) == Get(b, Nombre);
    assert Get(a, Dependencia) == Get(b, Dependencia);
    assert Get(a, Tipo) == Get(b, Tipo);
    assert Get(a, Descripcion) == Get(b, Descripcion);
    assert Get(a, DepartamentoDestino) == Get(b, DepartamentoDestino);
    assert Get(a, FechaCreacion) == Get(b, FechaCreacion);
    assert Get(a, Status) == Get(b, Status);
    assert Get(a, QuienAtendio) == Get(b, QuienAtendio);
    assert Get(a, QueHizo) == Get(b, QueHizo);
  }

  /** The JSON object the listing endpoint returns for one request. */
  function ToDict(r: Solicitud): (d: map<string, Json>)
    ensures forall c: Column :: KeyOf(c) in d && d[KeyOf(c)] == Get(r, c)
    ensures d.Keys == set c: Column :: KeyOf(c)
    ensures "status" !in d
  {
    var d := map[
      "id" := JInt(r.id),
      "cedula" := JStr(r.cedula),
      "nombre" := JStr(r.nombre),
      "dependencia" := JStr(r.dependencia),
      "tipo" := JStr(r.tipo),
      "descripcion" := JStr(r.descripcion),
      "departamento_destino" := JStr(r.departamentoDestino),
      "fecha_creacion" := JInt(r.fechaCreacion),
      "estado" := JStr(r.status),
      "quien_atendio" := OptionToJson(r.quienAtendio),
      "que_hizo" := OptionToJson(r.queHizo)
    ];
    assert forall k :: k in d ==> exists c: Column :: KeyOf(c) == k by {
      forall k | k in d
        ensures exists c: Column :: KeyOf(c) == k
      {
        if k == "id" { assert KeyOf(Id) == k; }
        else if k == "cedula" { assert KeyOf(Cedula) == k; }
        else if k == "nombre" { assert KeyOf(Nombre) == k; }
        else if k == "dependencia" { assert KeyOf(Dependencia) == k; }
        else if k == "tipo" { assert KeyOf(Tipo) == k; }
        else if k == "descripcion" { assert KeyOf(Descripcion) == k; }
        else if k == "departamento_destino" { assert KeyOf(DepartamentoDestino) == k; }
        else if k == "fecha_creacion" { assert KeyOf(FechaCreacion) == k; }
        else if k == "estado" { assert KeyOf(Status) == k; }
        else if k == "quien_atendio" { assert KeyOf(QuienAtendio) == k; }
        else { assert KeyOf(QueHizo) == k; }
      }
    }
    d
  }

  function JsonToOption(j: Json): Option<Option<string>>
  {
    match j
    case JNull => Some(None)
    case JStr(v) => Some(Some(v))
    case JInt(_) => None
  }

  /** Reads a request back from its JSON view; `None` when a key is missing
      or holds a value of the wrong kind. */
  function FromDict(d: map<string, Json>): Option<Solicitud>
  {
    if !("id" in d && d["id"].JInt? && "cedula" in d && d["cedula"].JStr?
         && "nombre" in d && d["nombre"].JStr? && "dependencia" in d && d["dependencia"].JStr?
         && "tipo" in d && d["tipo"].JStr? && "descripcion" in d && d["descripcion"].JStr?
         && "departamento_destino" in d && d["departamento_destino"].JStr?
         && "fecha_creacion" in d && d["fecha_creacion"].JInt?
         && "estado" in d && d["estado"].JStr?
         && "quien_atendio" in d && JsonToOption(d["quien_atendio"]).Some?
         && "que_hizo" in d && JsonToOption(d["que_hizo"]).Some?)
    then None
    else Some(Solicitud(
      d["id"].n, d["cedula"].s, d["nombre"].s, d["dependencia"].s, d["tipo"].s,
      d["descripcion"].s, d["departamento_destino"].s, d["fecha_creacion"].n,
      d["estado"].s, JsonToOption(d["quien_atendio"]).value, JsonToOption(d["que_hizo"]).value))
  }

  /** `to_dict` loses nothing: the request can be read back from it. */
  lemma ToDictRoundTrip(r: Solicitud)
    ensures FromDict(ToDict(r)) == Some(r)
  {
    match r.quienAtendio {
      case None =>
      case Some(_) =>
    }
    match r.queHizo {
      case None =>
      case Some(_) =>
    }
  }

  /** The request store: the rows of the `solicitud` table, in insertion order. */
  type Store = seq<Solicitud>

  /** The primary-key invariant of the table. */
  ghost predicate UniqueIds(store: Store)
  {
    forall i, j :: 0 <= i < j < |store| ==> store[i].id != store[j].id
  }

  function Ids(store: Store): set<int>
  {
    set r | r in store :: r.id
  }

  /** The position of the row with primary key `id`, as `get_or_404` looks it up. */
  function FindIndex(store: Store, id: int): (o: Option<nat>)
    ensures o.None? <==> id !in Ids(store)
    ensures o.Some? ==> o.value < |store| && store[o.value].id == id
    ensures o.Some? ==> forall j :: 0 <= j < o.value ==> store[j].id != id
  {
    if store == [] then None
    else if store[0].id == id then Some(0)
    else
      match FindIndex(store[1..], id)
      case None =>
        assert Ids(store) == {store[0].id} + Ids(store[1..]) by {
          assert store == [store[0]] + store[1..];
        }
        None
      case Some(i) => Some(i + 1)
  }

  /** In a store with unique ids, the row found is the only one with that id. */
  lemma FindIndexUnique(store: Store, id: int, j: nat)
    requires UniqueIds(store)
    requires j < |store| && store[j].id == id
    ensures FindIndex(store, id) == Some(j)
  {
  }
}

=== FILE: users.dfy ===
/** The identity store: the default accounts seeded at start-up, one per
    department, and the credential check of `login`. Password hashing is
    foreign code, so the hash and its check are parameters. */
module Users {
  import opened Common

  datatype User = User(username: string, passwordHash: string, departamento: string)

  /** The departments of the organisation, in the order they are seeded. */
  const Departamentos: seq<string> := ["DTISC", "DIAC", "DGA", "ECHALBA", "PRE", "DIE", "DCCIP"]

  /** The password every seeded account starts with. */
  const DefaultPassword: string := "fundacite"

  function LowerChar(c: char): char
  {
    if 'A' <= c <= 'Z' then (c as int + 32) as char else c
  }

  /** ASCII lower-casing, which is what `str.lower` does on department names. */
  function Lower(s: string): string
  {
    seq(|s|, i requires 0 <= i < |s| => LowerChar(s[i]))
  }

  predicate HasUser(users: seq<User>, name: string)
  {
    exists k :: 0 <= k < |users| && users[k].username == name
  }

  /** The `username` column is unique. */
  ghost predicate UniqueUsernames(users: seq<User>)
  {
    forall i, j :: 0 <= i < j < |users| ==> users[i].username != users[j].username
  }

  /** A default account: the lower-cased department name as username, the
      default password hashed. */
  ghost predicate IsDefaultAccount(u: User, deps: seq<string>, hash: string -> string)
  {
    u.departamento in deps && u.username == Lower(u.departamento) && u.passwordHash == hash(DefaultPassword)
  }

  /** The seeding loop over `deps`: each department whose lower-cased name is
      not yet a username gets a default account; the check sees the accounts
      added earlier in the same loop. */
  function SeedFrom(users: seq<User>, deps: seq<string>, hash: string -> string): (r: seq<User>)
    ensures |users| <= |r| && r[..|users|] == users
    ensures forall d :: d in deps ==> HasUser(r, Lower(d))
    ensures forall k :: |users| <= k < |r| ==> IsDefaultAccount(r[k], deps, hash)
    decreases |deps|
  {
    if deps == [] then users
    else
      var name := Lower(deps[0]);
      var next := if HasUser(users, name) then users else users + [User(name, hash(DefaultPassword), deps[0])];
      var r := SeedFrom(next, deps[1..], hash);
      assert r[..|users|] == r[..|next|][..|users|];
      assert HasUser(next, name) by {
        if !HasUser(users, name) {
          assert next[|users|].username == name;
        }
      }
      assert HasUser(r, name) by {
        var k :| 0 <= k < |next| && next[k].username == name;
        assert r[k] == r[..|next|][k];
      }
      assert forall d :: d in deps ==> d == deps[0] || d in deps[1..];
      r
  }

  /** Start-up seeding over the known departments. */
  function SeedUsers(users: seq<User>, hash: string -> string): (r: seq<User>)
    ensures |users| <= |r| && r[..|users|] == users
    ensures forall d :: d in Departamentos ==> HasUser(r, Lower(d))
  {
    var r := SeedFrom(users, Departamentos, hash);
    assert r[..|users|] == users;
    r
  }

  /** Seeding adds nothing once every department has its account. */
  lemma {:induction false} SeedFromComplete(users: seq<User>, deps: seq<string>, hash: string -> string)
    requires forall d :: d in deps ==> HasUser(users, Lower(d))
    ensures SeedFrom(users, deps, hash) == users
    decreases |deps|
  {
    if deps != [] {
      assert deps[0] in deps;
      assert forall d :: d in deps[1..] ==> d in deps;
      SeedFromComplete(users, deps[1..], hash);
    }
  }

  /** Seeding is idempotent: running start-up twice gives the accounts of
      running it once. */
  lemma SeedIdempotent(users: seq<User>, hash: string -> string)
    ensures SeedUsers(SeedUsers(users, hash), hash) == SeedUsers(users, hash)
  {
    SeedFromComplete(SeedUsers(users, hash), Departamentos, hash);
  }

  /** Seeding never creates a second account with an existing username. */
  lemma {:induction false} SeedKeepsUsernamesUnique(users: seq<User>, deps: seq<string>, hash: string -> string)
    requires UniqueUsernames(users)
    ensures UniqueUsernames(SeedFrom(users, deps, hash))
    decreases |deps|
  {
    if deps != [] {
      var name := Lower(deps[0]);
      if !HasUser(users, name) {
        var next := users + [User(name, hash(DefaultPassword), deps[0])];
        assert UniqueUsernames(next) by {
          forall i, j | 0 <= i < j < |next|
            ensures next[i].username != next[j].username
          {
            if j == |users| {
              assert next[i] == users[i];
            } else {
              assert next[i] == users[i] && next[j] == users[j];
            }
          }
        }
        SeedKeepsUsernamesUnique(next, deps[1..], hash);
      } else {
        SeedKeepsUsernamesUnique(users, deps[1..], hash);
      }
    }
  }

  /** The first account with that username, as `filter_by(...).first()`. */
  function FindUser(users: seq<User>, name: string): (o: Option<nat>)
    ensures o.None? <==> !HasUser(users, name)
    ensures o.Some? ==> o.value < |users| && users[o.value].username == name
    ensures o.Some? ==> forall j :: 0 <= j < o.value ==> users[j].username != name
  {
    if users == [] then None
    else if users[0].username == name then Some(0)
    else
      match FindUser(users[1..], name)
      case None =>
        assert forall k :: 1 <= k < |users| ==> users[k] == users[1..][k - 1];
        None
      case Some(i) => Some(i + 1)
  }

  /** What a successful login stores in the session and returns. */
  datatype LoginInfo = LoginInfo(departamento: string, username: string)

  /** `login`: 200 with the account's department and username when an
      account with that username exists and the password checks against
      its hash; 401 otherwise. An absent username matches no account. An
      absent password reaching the hash check makes werkzeug raise, which
      is answered with 500. */
  function Login(users: seq<User>, username: Option<string>, password: Option<string>,
                 check: (string, string) -> bool): (res: Result<LoginInfo>)
    ensures res.Failure? ==> res.status in {Unauthorized, InternalError}
    ensures res.Failure? && res.status == InternalError <==>
      username.Some? && HasUser(users, username.value) && password.None?
    ensures res.Success? <==>
      username.Some? && HasUser(users, username.value) && password.Some?
      && check(users[FindUser(users, username.value).value].passwordHash, password.value)
    ensures res.Success? ==>
      res.value.username == username.value
      && res.value.departamento == users[FindUser(users, username.value).value].departamento
  {
    if username.None? then Failure(Unauthorized)
    else
      match FindUser(users, username.value)
      case None => Failure(Unauthorized)
      case Some(i) =>
        if password.None? then Failure(InternalError)
        else if check(users[i].passwordHash, password.value)
        then Success(LoginInfo(users[i].departamento, users[i].username))
        else Failure(Unauthorized)
  }

  /** Seeding an empty identity store puts the `dtisc` account first. */
  lemma SeededHead(hash: string -> string)
    ensures |SeedUsers([], hash)| >= 1
    ensures SeedUsers([], hash)[0] == User("dtisc", hash(DefaultPassword), "DTISC")
  {
    var name := Lower("DTISC");
    assert name == "dtisc" by {
      assert |name| == 5;
      assert name[0] == 'd' && name[1] == 't' && name[2] == 'i' && name[3] == 's' && name[4] == 'c';
    }
    var first := [User(name, hash(DefaultPassword), "DTISC")];
    var users := SeedFrom(first, Departamentos[1..], hash);
    assert SeedUsers([], hash) == users by {
      var none: seq<User> := [];
      assert Departamentos != [] && Departamentos[0] == "DTISC";
      assert !HasUser(none, name);
      assert none + [User(name, hash(DefaultPassword), "DTISC")] == first;
    }
    assert users[..1] == first;
    assert users[0] == first[0];
  }

  /** After seeding an empty identity store, `dtisc` logs in with the
      default password and gets department `DTISC`. */
  lemma SeededLogin(hash: string -> string, check: (string, string) -> bool)
    requires check(hash(DefaultPassword), DefaultPassword)
    ensures Login(SeedUsers([], hash), Some("dtisc"), Some(DefaultPassword), check)
      == Success(LoginInfo("DTISC", "dtisc"))
  {
    var users := SeedUsers([], hash);
    SeededHead(hash);
    assert FindUser(users, "dtisc") == Some(0);
  }
}
